=== FILE: README.md ===
# logrange tag-filter compiler, modelled in Dafny

logrange selects journals by their tags with a boolean filter. The filter
is an OR of groups, each group an AND of terms, each term an optionally
negated leaf comparison (`env = "prod"`, `name LIKE "web-*"`, ...) or a
parenthesised nested filter. `BuildTagsExpFunc` compiles the parsed filter
once into a predicate over a tag map. The compiled predicate is then
applied to many tag sets.

The model follows the Go code closely:

- The Go builder threads one mutable "current predicate" `tef` through
  its recursion. Here every step (`BuildOrConds`, `BuildXConds`,
  `BuildXCond`, `BuildTagCond`) takes the current predicate and returns
  the new one together with the step's error.
- Go closures become the first-order datatype `Preds.Pred`. `Preds.Eval`
  calls a predicate.
- The zero func value is `Nil`, and calling it is the outcome `NilCall`
  (Go panics). Because `&&` and `||` short-circuit, whether a nil func is
  ever called depends on evaluation order. The model therefore shows that
  order.
- Comparisons use Go's string order (`Strs.LexLess`), which is proved to
  be the lexicographic order and a strict total order.
- CONTAINS, HAS_PREFIX and HAS_SUFFIX are `Strs.Contains`,
  `Strs.HasPrefix` and `Strs.HasSuffix`.
- The glob matcher `path.Match` is not part of this model. It enters as
  two parameters: `matches(pattern, name)` at evaluation time, and
  `probeOk(pattern)`, which says whether `path.Match(pattern, "abc")`
  returns no error, at compile time.
- `pkg/utils/ptrs.go` is modelled in `Ptrs`. A Go pointer is an `Option`.

The theorems are proved against a separate reference reading of the filter
language, `TagsEvalProofs.SemOrs`/`SemAnds`/`SemX`: a filter holds when it
has no groups or when some group has all its terms true. Over leaves whose
operator is supported and whose LIKE pattern passes the probe, the
compiled predicate never panics and agrees with that reading on every tag
map. Compilation fails exactly at the first bad leaf in reading order.

Two behaviours of the code are worth knowing before reading the model:

- An invalid LIKE pattern does not fail compilation, although the code
  tests the pattern first and builds a "Wrong 'like' expression" error for
  it (pkg/lql/tagseval.go:151-154). The error is lost (see Findings).
- A missing key reads as `""`. CONTAINS, HAS_PREFIX and HAS_SUFFIX are
  therefore true on a missing key exactly when the value looked for is
  `""` (`Preds.MissingKey`).

Files: `maybe.dfy` (Option), `strs.dfy` (string primitives), `ptrs.dfy`,
`lql.dfy` (filter tree, operator table, operator meanings), `preds.dfy`
(compiled predicates), `tagseval.dfy` (the compiler),
`tagseval_proofs.dfy` (reference semantics and theorems),
`tagseval_examples.dfy` (the LIKE error quirk and worked filters).

## Model

| member | source | states |
|---|---|---|
| Ptrs.GetInt64Val | pkg/utils/ptrs.go:17-22 | a non-nil pointer yields its pointee; a nil pointer yields the default |
| Ptrs.GetStringVal | pkg/utils/ptrs.go:24-29 | a non-nil pointer yields its pointee; a nil pointer yields the default |
| Ptrs.GetInt64ValIgnoresDefault | pkg/utils/ptrs.go:17-20 | through a non-nil pointer the default is irrelevant: any two defaults give the pointee |
| Ptrs.GetStringValIgnoresDefault | pkg/utils/ptrs.go:24-27 | through a non-nil pointer the default is irrelevant: any two defaults give the pointee |
| Ptrs.GetInt64ValIsDefaultIff | pkg/utils/ptrs.go:17-22 | the default comes back exactly when the pointer is nil or points at a value equal to it |
| Ptrs.GetStringValIsDefaultIff | pkg/utils/ptrs.go:24-29 | the default comes back exactly when the pointer is nil or points at a value equal to it |
| Strs.ToUpperIdempotent | pkg/lql/tagseval.go:124 | upper-casing an operator token twice is the same as once |
| Strs.LexLessIff | pkg/lql/tagseval.go:126-141 | Go's `<` on strings is exactly the textbook lexicographic order: proper prefix, or smaller at the first difference |
| Strs.LexLessTrichotomy | pkg/lql/tagseval.go:126-149 | for any two strings exactly one of `a < b`, `a == b`, `b < a` holds |
| Strs.LexLessTransitive | pkg/lql/tagseval.go:126-141 | string order is transitive |
| Strs.ContainsIff | pkg/lql/tagseval.go:164-167 | `strings.Contains(s, sub)` holds exactly when `sub` occurs at some offset of `s` |
| Strs.PrefixOrSuffixIsContained | pkg/lql/tagseval.go:164-175 | a string that HAS_PREFIX or HAS_SUFFIX a value also CONTAINS it |
| Strs.EmptyHaystack | pkg/lql/tagseval.go:164-175 | on the empty string CONTAINS, HAS_PREFIX and HAS_SUFFIX hold exactly for the empty value |
| Lql.Lookup | pkg/lql/tagseval.go:128 | a present key reads its value; a missing key reads as the empty string |
| Lql.ParseOpSpec | pkg/lql/tagseval.go:124-178 | a token selects an operator exactly when its upper-cased form is that operator's table token; otherwise it is the default branch |
| Lql.ParseToken | pkg/lql/tagseval.go:125-175 | every table token dispatches to its own operator: no entry is shadowed or unreachable |
| Lql.ParseOpIgnoresCase | pkg/lql/tagseval.go:124 | a token and its upper-cased form select the same operator, or none |
| Lql.CmpNegations | pkg/lql/tagseval.go:126-149 | `>=` is the negation of `<`, `<=` of `>`, `!=` of `=` |
| Preds.NilFreeNeverPanics | pkg/lql/tagseval.go:26-30 | a compiled predicate with no nil func inside returns a result on every tag map |
| Preds.Connectives | pkg/lql/tagseval.go:72-116 | when both sides return, the OR closure is disjunction, the AND closure conjunction and the NOT closure negation |
| Preds.ShortCircuit | pkg/lql/tagseval.go:72-98 | once the left side of AND is false, or of OR is true, the outcome is the same for every right side, even a nil func |
| Preds.LeftFirst | pkg/lql/tagseval.go:72-116 | a nil func on the left panics whatever the right side is: the left side is called first |
| Preds.MissingKey | pkg/lql/tagseval.go:126-175 | on a missing key the ordering operators compare `""`, LIKE is false, and CONTAINS/HAS_PREFIX/HAS_SUFFIX are true exactly for the value `""` |
| TagsEval.Build | pkg/lql/tagseval.go:35-47 | a nil expression gives the always-true predicate; otherwise the OR list is built from the nil func, and a build error is returned in place of any predicate; meaning in `TagsEvalProofs.CompileCorrect` and `TagsEvalProofs.CompileFailsAtFirstBadLeaf` |
| TagsEval.BuildTagsExpFunc | pkg/lql/tagseval.go:35-47 | the entry point as written, with the LIKE error shadowed; what it can fail on is in `TagsEvalProofs.AsWrittenFailsIffUnsupported` |
| TagsEval.BuildTagsExpFuncIntended | pkg/lql/tagseval.go:150-154 | the entry point with the LIKE error returned; meaning in `TagsEvalProofs.IntendedIsCorrect` and `TagsEvalProofs.IntendedFailsIffUnsound` |
| TagsEval.BuildOrConds | pkg/lql/tagseval.go:49-74 | no group builds to the always-true predicate; otherwise the first group, then the rest from its predicate, joined by `Or`, stopping at the first error; meaning in `TagsEvalProofs.OrsCorrect` and `TagsEvalProofs.OrsError` |
| TagsEval.BuildXConds | pkg/lql/tagseval.go:76-101 | the same for the terms of a group, joined by `And`; meaning in `TagsEvalProofs.AndsCorrect` and `TagsEvalProofs.AndsError` |
| TagsEval.BuildXCond | pkg/lql/tagseval.go:103-121 | builds the nested expression or the leaf, then wraps the current predicate in `Not` when negated and no error occurred; meaning in `TagsEvalProofs.XCorrect`, `TagsEvalProofs.XError` and `TagsEvalProofs.NegationWrapsInner` |
| Preds.Eval | pkg/lql/tagseval.go:72-116 | calls a compiled predicate: the closures for `||`, `&&` and `!` call the left side first, and calling the nil func panics; meaning in `Preds.Connectives`, `Preds.ShortCircuit`, `Preds.LeftFirst` and `Preds.NilFreeNeverPanics` |
| Lql.ParseOp | pkg/lql/tagseval.go:124-179 | upper-cases the operator and picks the switch case whose token matches, or none for the `default` branch; meaning in `Lql.ParseOpSpec`, `Lql.ParseToken` and `Lql.ParseOpIgnoresCase` |
| Strs.ToUpper | pkg/lql/tagseval.go:124 | same length, each ASCII lower-case letter raised and every other character kept; see `Strs.ToUpperIdempotent` |
| Strs.LexLess | pkg/lql/tagseval.go:126-141 | Go's `<` on strings; characterised in `Strs.LexLessIff`, `Strs.LexLessTrichotomy` and `Strs.LexLessTransitive` |
| Strs.Contains | pkg/lql/tagseval.go:164-167 | `strings.Contains`; characterised in `Strs.ContainsIff` |
| Strs.HasPrefix | pkg/lql/tagseval.go:168-171 | `strings.HasPrefix`: the value is an initial segment of the tag; see `Strs.PrefixOrSuffixIsContained` |
| Strs.HasSuffix | pkg/lql/tagseval.go:172-175 | `strings.HasSuffix`: the value is a final segment of the tag; see `Strs.PrefixOrSuffixIsContained` |
| TagsEval.BuildTagCond | pkg/lql/tagseval.go:123-180 | a leaf step's error is the leaf's own error; a sound leaf yields a panic-free closure meaning the operator's test; an unsound leaf leaves the current predicate unchanged |
| TagsEvalProofs.FirstError | pkg/lql/tagseval.go:55-112 | no error exactly when no leaf has one; otherwise the error of some leaf with no erring leaf before it |
| TagsEvalProofs.OrsError | pkg/lql/tagseval.go:49-74 | building an OR list fails exactly with the first leaf error in reading order, whatever the current predicate was |
| TagsEvalProofs.AndsError | pkg/lql/tagseval.go:76-101 | building an AND list fails exactly with the first leaf error in reading order |
| TagsEvalProofs.XError | pkg/lql/tagseval.go:103-121 | a term fails exactly with the first leaf error inside it; negation adds none |
| TagsEvalProofs.OrsCorrect | pkg/lql/tagseval.go:49-74 | over sound leaves an OR list builds without error to a panic-free predicate that is true iff the list is empty or some group holds |
| TagsEvalProofs.AndsCorrect | pkg/lql/tagseval.go:76-101 | over sound leaves an AND list builds to a panic-free predicate that is true iff every term holds |
| TagsEvalProofs.XCorrect | pkg/lql/tagseval.go:103-121 | over sound leaves a term builds to a panic-free predicate equal to its leaf or nested filter, inverted when negated |
| TagsEvalProofs.NilExpressionMatchesAll | pkg/lql/tagseval.go:33-38 | a nil filter compiles with no error to a predicate that is true on every tag map |
| TagsEvalProofs.CompileFailsAtFirstBadLeaf | pkg/lql/tagseval.go:35-47 | compilation fails iff some leaf has an error, and then returns the first such error |
| TagsEvalProofs.CompileCorrect | pkg/lql/tagseval.go:35-47 | over sound leaves compilation succeeds with a panic-free predicate equal to the reference semantics on every tag map |
| TagsEvalProofs.AsWrittenFailsIffUnsupported | pkg/lql/tagseval.go:150-179 | as written, compilation fails exactly when some leaf has an unsupported operator; bad LIKE patterns never fail it |
| TagsEvalProofs.IntendedIsCorrect | pkg/lql/tagseval.go:150-154 | with the LIKE error returned, every filter that compiles is panic-free and equals the reference semantics |
| TagsEvalProofs.IntendedFailsIffUnsound | pkg/lql/tagseval.go:150-154 | with the LIKE error returned, compilation fails exactly when some leaf is unsupported or has a pattern that fails the probe |
| TagsEvalProofs.EmptyListsMatchAll | pkg/lql/tagseval.go:49-80 | an empty OR list or AND list builds, whatever came before, to a predicate true on every tag map |
| TagsEvalProofs.SingletonIsItsElement | pkg/lql/tagseval.go:55-84 | a one-group OR list builds exactly as its group, a one-term AND list exactly as its term |
| TagsEvalProofs.OrsFoldLeftToRight | pkg/lql/tagseval.go:65-73 | an OR list of two or more groups is the first group joined by `\|\|` to the rest, the rest built from the first group's predicate |
| TagsEvalProofs.AndsFoldLeftToRight | pkg/lql/tagseval.go:86-99 | an AND list of two or more terms is the first term joined by `&&` to the rest, the rest built from the first term's predicate |
| TagsEvalProofs.NegationWrapsInner | pkg/lql/tagseval.go:103-121 | a negated term builds to `Not` of its un-negated build, fails exactly when that fails, and evaluates to the negation |
| TagsEvalProofs.NotOfEmptyIsFalse | pkg/lql/tagseval.go:103-118 | `NOT ()` builds without error to a predicate false on every tag map |
| TagsEvalExamples.BadLikeKeepsCurrent | pkg/lql/tagseval.go:150-163 | as written, a LIKE with a pattern failing the probe reports no error and keeps the current predicate; with the error returned it fails with that pattern |
| TagsEvalExamples.LoneBadLikeCompilesToNil | pkg/lql/tagseval.go:150-163 | as written, a filter that is one bad LIKE compiles without error to the nil func, which panics on every tag map |
| TagsEvalExamples.BadLikeRepeatsPrevious | pkg/lql/tagseval.go:86-98 | as written, `a AND bad-LIKE` compiles to `a && a`: the pattern is ignored and the filter means `a` |
| TagsEvalExamples.NegatedLoneBadLikePanics | pkg/lql/tagseval.go:114-117 | as written, `NOT bad-LIKE` as the whole filter compiles to the negated nil func and panics on every tag map |
| TagsEvalExamples.RegionFilterExample | pkg/lql/tagseval.go:35-99 | `region = "us-east" AND (env = "prod" OR env = "staging")` is true on `{region: us-east, env: staging}` and false on `{region: us-west, env: prod}` |
| TagsEvalExamples.PrefixLeafCompiles | pkg/lql/tagseval.go:168-171 | a leaf whose operator parses as HAS_PREFIX, in any letter case, builds to the prefix closure on its operand and value, with no error and whatever the current predicate was |
| TagsEvalExamples.NotTmpFilterExample | pkg/lql/tagseval.go:103-170 | `NOT (name has_prefix "tmp_")` (operator in lower case) is false on `{name: tmp_file}` and true on `{name: data}` |
| TagsEvalExamples.NegationIsNotDistributed | pkg/lql/tagseval.go:103-121 | `NOT (a AND b)` and `NOT a AND NOT b` both compile and disagree on `{a: "1"}` |
| TagsEvalExamples.UnsupportedOperatorFails | pkg/lql/tagseval.go:176-179 | a filter that is one leaf, negated or not, whose operator is outside the table fails compilation in either mode with an error naming the operator and the operand |
| TagsEvalExamples.TildeOperatorFails | pkg/lql/tagseval.go:86-94 | `env = "prod" AND size ~ "10"` fails with `Unsupported("~", "size")`: an unsupported leaf after a good one still fails the whole filter |

## Left out

- `cmd/logrange/main.go` is not part of this model: CLI flags, config loading, signal handling and server start-up.
- `path.Match` glob syntax is not part of this model. Matching and the compile-time probe are the parameters `matches` and `probeOk`; glob matching itself is not modelled.
- Strs.ToUpper, Lql.ParseOp, Lql.ParseOpSpec: upper-case ASCII letters only. Go's `strings.ToUpper` also maps some non-ASCII letters to ASCII ones (U+0131 to `I`, U+017F to `S`), so a token such as `lıke` reaches LIKE in Go but the default branch here.
- The values of `CMP_LIKE`, `CMP_CONTAINS`, `CMP_HAS_PREFIX` and `CMP_HAS_SUFFIX` are defined outside the modelled files. The model uses `LIKE`, `CONTAINS`, `HAS_PREFIX` and `HAS_SUFFIX`. The general lemmas in `Lql`, `Preds`, `TagsEval` and `TagsEvalProofs` rely only on these being distinct, upper-case, and different from the symbol tokens. `TagsEvalExamples.LowerCaseHasPrefix` and `TagsEvalExamples.NotTmpFilterExample` also assume that `CMP_HAS_PREFIX` is exactly `HAS_PREFIX`, and the `lıke` example above assumes that `CMP_LIKE` is exactly `LIKE`.
- Error message text from `fmt.Errorf` is not modelled. An error is the tagged value `BadPattern(pattern)` or `Unsupported(op, operand)`.
- Go strings are byte strings and may hold invalid UTF-8. The model's strings are sequences of Unicode scalar values. For valid UTF-8, code-point order equals Go's byte order.
- The Go closures keep a pointer to the `Condition` and read its fields on every call. The model treats the tree as immutable, so later mutation of the tree is not modelled.
- The parse tree's pointers are never nil here. Go would panic on a nil `*OrCondition` or `*XCondition` in a slice, or on a term whose `Expr` and `Cond` are both nil. The model assumes that no compiled tree contains such a pointer.
- Concurrent use of a compiled predicate is not modelled. Evaluation is a pure function, so compiling the same filter twice always gives the same predicate.
- After a failed step the model keeps whatever predicate the builder held. The Go entry point discards it, and so does `TagsEval.Build`.

## Findings

| source | as written | input that shows it | evidently intended | confidence | as-written member | corrected member |
|---|---|---|---|---|---|---|
| pkg/lql/tagseval.go:150-154 | `_, err := path.Match(...)` declares a new `err` in the `case` block that shadows the named result. The "Wrong 'like' expression" error is built into the shadow and dropped, and `tef` is not updated. | the filter `name LIKE "["` (a pattern that fails the probe): compiles with no error to the nil func, which panics on every tag map; `a = "x" AND name LIKE "["` compiles to `a = "x" && a = "x"` | the error is returned from `buildTagCond`, so compilation fails and no unusable predicate escapes | high (not executed) | TagsEvalExamples.LoneBadLikeCompilesToNil | TagsEvalProofs.IntendedIsCorrect |

The builder takes a `LikeErrors` mode: `Shadowed` is the code as written
(`TagsEval.BuildTagsExpFunc`), and `Returned` is the corrected behaviour
(`TagsEval.BuildTagsExpFuncIntended`). Every lemma in `TagsEvalProofs`
that takes a `mode` parameter holds for both modes. `TagsEvalProofs.IntendedIsCorrect` and
`TagsEvalProofs.IntendedFailsIffUnsound` hold for the corrected one.

=== FILE: lql.dfy ===
/** The parsed filter expression the compiler consumes, the table of
    comparison operators, and what each operator means on a tag map.

    The grammar: an expression is an OR of groups, a group is an AND of
    terms, a term is an optionally negated leaf condition or a
    parenthesised nested expression. */
module Lql {
  import opened Maybe
  import Strs

  /** The tag set of a journal: tag name to tag value. */
  type TagMap = map<string, string>

  /** Go's `path.Match(pattern, name)` result, ignoring its error. */
  type GlobMatch = (string, string) -> bool

  /** Whether `path.Match(pattern, "abc")` returns no error. */
  type GlobProbe = string -> bool

  /** `operand op value`, e.g. `env = "prod"`. The operator token is kept
      as written; it is upper-cased only when it is dispatched. */
  datatype Condition = Condition(operand: string, op: string, value: string)

  /** The two shapes a term may take: a leaf comparison, or a nested
      expression in parentheses. */
  datatype Term = Leaf(cond: Condition) | Nested(expr: Expression)

  /** One term of an AND group, with its `NOT` flag. */
  datatype XCondition = XCondition(not: bool, term: Term)

  /** Terms combined with AND. */
  datatype OrCondition = OrCondition(ands: seq<XCondition>)

  /** Groups combined with OR. */
  datatype Expression = Expression(ors: seq<OrCondition>)

  /** Go's `tags[key]`: a missing key reads as the empty string. */
  function Lookup(tags: TagMap, key: string): (v: string)
    ensures key in tags ==> v == tags[key]
    ensures key !in tags ==> v == ""
  {
    if key in tags then tags[key] else ""
  }

  /* ---------------------------------------------------------------- */
  /* The operator table                                                */
  /* ---------------------------------------------------------------- */

  datatype CmpOp = Lt | Gt | Le | Ge | Ne | Eq

  datatype Op =
    | Compare(cmp: CmpOp)
    | LikeOp
    | ContainsOp
    | HasPrefixOp
    | HasSuffixOp

  /* The keyword operators, already upper-cased. */
  const CmpLike := "LIKE"
  const CmpContains := "CONTAINS"
  const CmpHasPrefix := "HAS_PREFIX"
  const CmpHasSuffix := "HAS_SUFFIX"

  /** The canonical (upper-case) token of every supported operator. */
  function Token(op: Op): string {
    match op
    case Compare(Lt) => "<"
    case Compare(Gt) => ">"
    case Compare(Le) => "<="
    case Compare(Ge) => ">="
    case Compare(Ne) => "!="
    case Compare(Eq) => "="
    case LikeOp => CmpLike
    case ContainsOp => CmpContains
    case HasPrefixOp => CmpHasPrefix
    case HasSuffixOp => CmpHasSuffix
  }

  /** Look an already upper-cased token up in the table. */
  function OpOfToken(t: string): Option<Op> {
    if t == "<" then Some(Compare(Lt))
    else if t == ">" then Some(Compare(Gt))
    else if t == "<=" then Some(Compare(Le))
    else if t == ">=" then Some(Compare(Ge))
    else if t == "!=" then Some(Compare(Ne))
    else if t == "=" then Some(Compare(Eq))
    else if t == CmpLike then Some(LikeOp)
    else if t == CmpContains then Some(ContainsOp)
    else if t == CmpHasPrefix then Some(HasPrefixOp)
    else if t == CmpHasSuffix then Some(HasSuffixOp)
    else None
  }

  /** Dispatch on an operator token as written: upper-case it, then look
      it up in the table; `None` is the `default` branch of the switch. */
  function ParseOp(token: string): Option<Op> {
    OpOfToken(Strs.ToUpper(token))
  }

  /** A token selects an operator exactly when its upper-cased form is
      that operator's canonical token; otherwise it selects none. */
  lemma ParseOpSpec(token: string)
    ensures ParseOp(token).Some? ==> Token(ParseOp(token).value) == Strs.ToUpper(token)
    ensures ParseOp(token).None? ==> forall op: Op :: Token(op) != Strs.ToUpper(token)
  {
  }

  lemma TokenIsUpper(op: Op)
    ensures Strs.NoLowerAscii(Token(op))
  {
  }

  /** The table lookup finds every canonical token's own operator. */
  lemma OpOfTokenFindsToken(op: Op)
    ensures OpOfToken(Token(op)) == Some(op)
  {
    match op
    case Compare(Lt) =>
    case Compare(Gt) =>
    case Compare(Le) =>
    case Compare(Ge) =>
    case Compare(Ne) =>
    case Compare(Eq) =>
    case LikeOp =>
    case ContainsOp =>
    case HasPrefixOp =>
    case HasSuffixOp =>
  }

  /** Every canonical token dispatches to its own operator, so the table
      has no two entries for one token and no unreachable entry. */
  lemma ParseToken(op: Op)
    ensures ParseOp(Token(op)) == Some(op)
  {
    TokenIsUpper(op);
    Strs.ToUpperFixesUpper(Token(op));
    OpOfTokenFindsToken(op);
  }

  /** Dispatch ignores letter case: a token and its upper-cased form
      select the same operator (or both none). */
  lemma ParseOpIgnoresCase(token: string)
    ensures ParseOp(token) == ParseOp(Strs.ToUpper(token))
  {
    Strs.ToUpperIdempotent(token);
  }

  /* ---------------------------------------------------------------- */
  /* What each operator means                                          */
  /* ---------------------------------------------------------------- */

  /** Go's `a <op> b` on strings. */
  predicate CmpHolds(cmp: CmpOp, a: string, b: string) {
    match cmp
    case Lt => Strs.LexLess(a, b)
    case Gt => Strs.LexLess(b, a)
    case Le => Strs.LexLess(a, b) || a == b
    case Ge => Strs.LexLess(b, a) || a == b
    case Ne => a != b
    case Eq => a == b
  }

  /** The six comparisons pair up as negations of one another, because
      string order is total. */
  lemma CmpNegations(a: string, b: string)
    ensures CmpHolds(Ge, a, b) <==> !CmpHolds(Lt, a, b)
    ensures CmpHolds(Le, a, b) <==> !CmpHolds(Gt, a, b)
    ensures CmpHolds(Ne, a, b) <==> !CmpHolds(Eq, a, b)
  {
    Strs.LexLessTrichotomy(a, b);
  }

  /** The operator table read as a truth condition on `tags`. Ordering
      and substring operators read a missing key as the empty string;
      LIKE is false on a missing key.

      This is the reference reading of each operator, stated on the parsed
      operator. The compiled leaf closures (`Preds.EvalLeaf`) are a second,
      separate definition, and `TagsEval.BuildTagCond` proves that the
      closure built for a leaf agrees with this reading on every tag map. */
  predicate OpHolds(op: Op, tags: TagMap, operand: string, value: string, matches: GlobMatch) {
    match op
    case Compare(cmp) => CmpHolds(cmp, Lookup(tags, operand), value)
    case LikeOp => operand in tags && matches(value, tags[operand])
    case ContainsOp => Strs.Contains(Lookup(tags, operand), value)
    case HasPrefixOp => Strs.HasPrefix(Lookup(tags, operand), value)
    case HasSuffixOp => Strs.HasSuffix(Lookup(tags, operand), value)
  }

  /** A leaf condition is true when its operator is supported and holds. */
  predicate LeafHolds(c: Condition, tags: TagMap, matches: GlobMatch) {
    match ParseOp(c.op)
    case None => false
    case Some(op) => OpHolds(op, tags, c.operand, c.value, matches)
  }
}

=== FILE: maybe.dfy ===
/** The optional value used throughout the model: a Go pointer that may be
    nil, a Go `error` that may be nil, a map lookup that may miss. */
module Maybe {

  datatype Option<+T> = None | Some(value: T)

}

=== FILE: preds.dfy ===
/** The compiled predicate. Go builds nested closures of type
    `func(model.TagMap) bool`; here each closure is a constructor holding
    only what it captures, and `Eval` calls it.

    A Go func value may be nil: the builder's "current predicate" starts
    out nil and can stay nil (see `TagsEval`). Calling a nil func panics,
    so `Eval` returns an `Outcome` that is either a result or `NilCall`. */
module Preds {
  import opened Lql
  import Strs

  datatype Pred =
    | True                                              // positiveTagsExpFunc
    | Nil                                               // the zero func value
    | Cmp(cmp: CmpOp, operand: string, value: string)   // tags[operand] <cmp> value
    | Like(operand: string, pattern: string)            // path.Match(pattern, tags[operand])
    | Contains(operand: string, value: string)          // strings.Contains
    | Prefix(operand: string, value: string)            // strings.HasPrefix
    | Suffix(operand: string, value: string)            // strings.HasSuffix
    | And(left: Pred, right: Pred)                      // left(tags) && right(tags)
    | Or(left: Pred, right: Pred)                       // left(tags) || right(tags)
    | Not(inner: Pred)                                  // !inner(tags)

  datatype Outcome = Ret(value: bool) | NilCall

  /** The leaf closures: one operator test on one tag. */
  predicate IsLeaf(p: Pred) {
    p.Cmp? || p.Like? || p.Contains? || p.Prefix? || p.Suffix?
  }

  /** Call a leaf closure on `tags`. */
  predicate EvalLeaf(p: Pred, tags: TagMap, matches: GlobMatch)
    requires IsLeaf(p)
  {
    match p
    case Cmp(cmp, operand, value) => CmpHolds(cmp, Lookup(tags, operand), value)
    case Like(operand, pattern) => operand in tags && matches(pattern, tags[operand])
    case Contains(operand, value) => Strs.Contains(Lookup(tags, operand), value)
    case Prefix(operand, value) => Strs.HasPrefix(Lookup(tags, operand), value)
    case Suffix(operand, value) => Strs.HasSuffix(Lookup(tags, operand), value)
  }

  /** Call the predicate on `tags`. `&&` and `||` evaluate their left
      operand first and the right one only when the left does not decide. */
  function Eval(p: Pred, tags: TagMap, matches: GlobMatch): Outcome {
    match p
    case True => Ret(true)
    case Nil => NilCall
    case And(l, r) =>
      var o := Eval(l, tags, matches);
      if o.NilCall? then NilCall else if o.value then Eval(r, tags, matches) else Ret(false)
    case Or(l, r) =>
      var o := Eval(l, tags, matches);
      if o.NilCall? then NilCall else if o.value then Ret(true) else Eval(r, tags, matches)
    case Not(q) =>
      var o := Eval(q, tags, matches);
      if o.NilCall? then NilCall else Ret(!o.value)
    case _ => Ret(EvalLeaf(p, tags, matches))
  }

  /** No nil func anywhere inside. */
  predicate NilFree(p: Pred) {
    match p
    case Nil => false
    case And(l, r) => NilFree(l) && NilFree(r)
    case Or(l, r) => NilFree(l) && NilFree(r)
    case Not(q) => NilFree(q)
    case _ => true
  }

  /** A predicate without a nil func inside never panics. */
  lemma {:induction false} NilFreeNeverPanics(p: Pred, tags: TagMap, matches: GlobMatch)
    requires NilFree(p)
    ensures Eval(p, tags, matches).Ret?
  {
    match p
    case And(l, r) =>
      NilFreeNeverPanics(l, tags, matches);
      NilFreeNeverPanics(r, tags, matches);
    case Or(l, r) =>
      NilFreeNeverPanics(l, tags, matches);
      NilFreeNeverPanics(r, tags, matches);
    case Not(q) =>
      NilFreeNeverPanics(q, tags, matches);
    case _ =>
  }

  /** When neither side panics, `And` is conjunction, `Or` disjunction and
      `Not` negation. */
  lemma Connectives(l: Pred, r: Pred, tags: TagMap, matches: GlobMatch)
    requires Eval(l, tags, matches).Ret? && Eval(r, tags, matches).Ret?
    ensures Eval(And(l, r), tags, matches)
         == Ret(Eval(l, tags, matches).value && Eval(r, tags, matches).value)
    ensures Eval(Or(l, r), tags, matches)
         == Ret(Eval(l, tags, matches).value || Eval(r, tags, matches).value)
    ensures Eval(Not(l), tags, matches) == Ret(!Eval(l, tags, matches).value)
  {
  }

  /** Short circuit: once the left side of `And` is false, or the left
      side of `Or` is true, the right side is never called: any right side,
      even a nil func, gives the same outcome. */
  lemma ShortCircuit(l: Pred, r1: Pred, r2: Pred, tags: TagMap, matches: GlobMatch)
    ensures Eval(l, tags, matches) == Ret(false) ==>
              Eval(And(l, r1), tags, matches) == Eval(And(l, r2), tags, matches) == Ret(false)
    ensures Eval(l, tags, matches) == Ret(true) ==>
              Eval(Or(l, r1), tags, matches) == Eval(Or(l, r2), tags, matches) == Ret(true)
  {
    var o := Eval(l, tags, matches);
    if o == Ret(false) {
      assert Eval(And(l, r1), tags, matches) == Ret(false);
      assert Eval(And(l, r2), tags, matches) == Ret(false);
    } else if o == Ret(true) {
      assert Eval(Or(l, r1), tags, matches) == Ret(true);
      assert Eval(Or(l, r2), tags, matches) == Ret(true);
    }
  }

  /** Left to right: a panic on the left side happens before the right side
      is looked at, whatever the right side is. */
  lemma LeftFirst(l: Pred, r: Pred, tags: TagMap, matches: GlobMatch)
    requires Eval(l, tags, matches) == NilCall
    ensures Eval(And(l, r), tags, matches) == NilCall
    ensures Eval(Or(l, r), tags, matches) == NilCall
    ensures Eval(Not(l), tags, matches) == NilCall
  {
  }

  /** A missing key: ordering and equality see the empty string, LIKE is
      false, and CONTAINS, HAS_PREFIX and HAS_SUFFIX hold exactly when the
      value looked for is the empty string. */
  lemma MissingKey(operand: string, value: string, cmp: CmpOp, tags: TagMap, matches: GlobMatch)
    requires operand !in tags
    ensures Eval(Cmp(cmp, operand, value), tags, matches) == Ret(CmpHolds(cmp, "", value))
    ensures Eval(Like(operand, value), tags, matches) == Ret(false)
    ensures Eval(Contains(operand, value), tags, matches) == Ret(value == "")
    ensures Eval(Prefix(operand, value), tags, matches) == Ret(value == "")
    ensures Eval(Suffix(operand, value), tags, matches) == Ret(value == "")
  {
    assert Lookup(tags, operand) == "";
    Strs.EmptyHaystack(value);
    assert EvalLeaf(Contains(operand, value), tags, matches) == Strs.Contains("", value);
    assert EvalLeaf(Prefix(operand, value), tags, matches) == Strs.HasPrefix("", value);
    assert EvalLeaf(Suffix(operand, value), tags, matches) == Strs.HasSuffix("", value);
  }
}

=== FILE: ptrs.dfy ===
/** Accessors that read through a pointer that may be nil, falling back to
    a default value (`pkg/utils/ptrs.go`). A Go pointer is an `Option`:
    `None` is nil, `Some(v)` points at `v`. */
module Ptrs {
  import opened Maybe

  /** Go's `int64`. */
  newtype Int64 = x: int | -0x8000_0000_0000_0000 <= x < 0x8000_0000_0000_0000

  /** Go's `GetInt64Val`: the pointee if there is one, else the default. */
  function GetInt64Val(ptr: Option<Int64>, defVal: Int64): (r: Int64)
    ensures ptr.Some? ==> r == ptr.value
    ensures ptr.None? ==> r == defVal
  {
    if ptr.Some? then ptr.value else defVal
  }

  /** Go's `GetStringVal`: the pointee if there is one, else the default. */
  function GetStringVal(ptr: Option<string>, defVal: string): (r: string)
    ensures ptr.Some? ==> r == ptr.value
    ensures ptr.None? ==> r == defVal
  {
    if ptr.Some? then ptr.value else defVal
  }

  /** The default matters only for a nil pointer: through a non-nil
      pointer, any two defaults give the same answer. */
  lemma GetInt64ValIgnoresDefault(x: Int64, d1: Int64, d2: Int64)
    ensures GetInt64Val(Some(x), d1) == GetInt64Val(Some(x), d2) == x
  {
  }

  lemma GetStringValIgnoresDefault(x: string, d1: string, d2: string)
    ensures GetStringVal(Some(x), d1) == GetStringVal(Some(x), d2) == x
  {
  }

  /** The default comes back exactly when the pointer is nil or points at
      a value equal to the default. */
  lemma GetInt64ValIsDefaultIff(ptr: Option<Int64>, defVal: Int64)
    ensures GetInt64Val(ptr, defVal) == defVal <==> ptr.None? || ptr.value == defVal
  {
  }

  lemma GetStringValIsDefaultIff(ptr: Option<string>, defVal: string)
    ensures GetStringVal(ptr, defVal) == defVal <==> ptr.None? || ptr.value == defVal
  {
  }
}

=== FILE: strs.dfy ===
/** The string primitives the tag filter relies on: Go's `strings.ToUpper`
    (ASCII part), Go's ordering of strings, and `strings.Contains`,
    `strings.HasPrefix`, `strings.HasSuffix`.

    Strings are sequences of Unicode scalar values. Ordering them by code
    point gives the same order Go obtains by comparing their UTF-8 bytes. */
module Strs {

  /* ---------------------------------------------------------------- */
  /* Upper-casing                                                      */
  /* ---------------------------------------------------------------- */

  predicate IsLowerAscii(c: char) {
    'a' <= c <= 'z'
  }

  function UpperChar(c: char): (u: char)
    ensures IsLowerAscii(c) ==> u as int == c as int - 32
    ensures !IsLowerAscii(c) ==> u == c
    ensures !IsLowerAscii(u)
  {
    if IsLowerAscii(c) then (c as int - 32) as char else c
  }

  /** ASCII upper-casing of a whole string, character by character. */
  function ToUpper(s: string): (r: string)
    ensures |r| == |s|
    ensures forall i :: 0 <= i < |s| ==> r[i] == UpperChar(s[i])
  {
    if |s| == 0 then [] else [UpperChar(s[0])] + ToUpper(s[1..])
  }

  predicate NoLowerAscii(s: string) {
    forall i :: 0 <= i < |s| ==> !IsLowerAscii(s[i])
  }

  /** Upper-casing leaves no lower-case letter behind. */
  lemma ToUpperHasNoLower(s: string)
    ensures NoLowerAscii(ToUpper(s))
  {
  }

  /** A string without lower-case letters is its own upper-cased form. */
  lemma ToUpperFixesUpper(s: string)
    requires NoLowerAscii(s)
    ensures ToUpper(s) == s
  {
  }

  /** Upper-casing twice is upper-casing once. */
  lemma ToUpperIdempotent(s: string)
    ensures ToUpper(ToUpper(s)) == ToUpper(s)
  {
    ToUpperHasNoLower(s);
    ToUpperFixesUpper(ToUpper(s));
  }

  /* ---------------------------------------------------------------- */
  /* Lexicographic order                                               */
  /* ---------------------------------------------------------------- */

  /** Go's `a < b` on strings: compare element by element; at the first
      difference the smaller element wins; if one string runs out first,
      it is the smaller one. */
  function LexLess(a: string, b: string): bool
    decreases |a|
  {
    if |a| == 0 then |b| > 0
    else if |b| == 0 then false
    else if a[0] != b[0] then a[0] < b[0]
    else LexLess(a[1..], b[1..])
  }

  /** `a` and `b` agree before position `k`, where `a` has the smaller
      element. */
  ghost predicate FirstDiffLess(a: string, b: string, k: nat) {
    k < |a| && k < |b| && a[..k] == b[..k] && a[k] < b[k]
  }

  /** The textbook definition: `a` is a proper prefix of `b`, or the two
      first differ at a position where `a` has the smaller element. */
  ghost predicate LexLessSpec(a: string, b: string) {
    || (|a| < |b| && a == b[..|a|])
    || exists k: nat :: FirstDiffLess(a, b, k)
  }

  lemma {:induction false} LexLessToSpec(a: string, b: string)
    requires LexLess(a, b)
    ensures LexLessSpec(a, b)
    decreases |a|
  {
    if |a| == 0 {
      assert a == b[..0];
    } else if a[0] != b[0] {
      assert FirstDiffLess(a, b, 0);
    } else {
      var a', b' := a[1..], b[1..];
      LexLessToSpec(a', b');
      if |a'| < |b'| && a' == b'[..|a'|] {
        assert a == [a[0]] + a' && b[..|a|] == [b[0]] + b'[..|a'|];
      } else {
        var k: nat :| FirstDiffLess(a', b', k);
        assert a[..k + 1] == [a[0]] + a'[..k] && b[..k + 1] == [b[0]] + b'[..k];
        assert FirstDiffLess(a, b, k + 1);
      }
    }
  }

  lemma {:induction false} LexLessFromSpec(a: string, b: string)
    requires LexLessSpec(a, b)
    ensures LexLess(a, b)
    decreases |a|
  {
    if |a| < |b| && a == b[..|a|] {
      if |a| > 0 {
        assert a[0] == b[..|a|][0] == b[0];
        assert a[1..] == b[1..][..|a| - 1];
        LexLessFromSpec(a[1..], b[1..]);
      }
    } else {
      var k: nat :| FirstDiffLess(a, b, k);
      if k > 0 {
        assert a[0] == a[..k][0] == b[..k][0] == b[0];
        assert a[1..][..k - 1] == a[..k][1..] && b[1..][..k - 1] == b[..k][1..];
        assert FirstDiffLess(a[1..], b[1..], k - 1);
        LexLessFromSpec(a[1..], b[1..]);
      }
    }
  }

  /** The element-by-element recursion and the textbook definition
      agree on every pair of strings. */
  lemma LexLessIff(a: string, b: string)
    ensures LexLess(a, b) <==> LexLessSpec(a, b)
  {
    if LexLess(a, b) {
      LexLessToSpec(a, b);
    }
    if LexLessSpec(a, b) {
      LexLessFromSpec(a, b);
    }
  }

  lemma {:induction false} LexLessIrreflexive(a: string)
    ensures !LexLess(a, a)
    decreases |a|
  {
    if |a| > 0 {
      LexLessIrreflexive(a[1..]);
    }
  }

  lemma {:induction false} LexLessTransitive(a: string, b: string, c: string)
    requires LexLess(a, b) && LexLess(b, c)
    ensures LexLess(a, c)
    decreases |a|
  {
    if |a| > 0 && a[0] == b[0] && b[0] == c[0] {
      LexLessTransitive(a[1..], b[1..], c[1..]);
    }
  }

  /** Exactly one of `a < b`, `a == b`, `b < a` holds. */
  lemma {:induction false} LexLessTrichotomy(a: string, b: string)
    ensures LexLess(a, b) || a == b || LexLess(b, a)
    ensures !(LexLess(a, b) && LexLess(b, a))
    ensures a == b ==> !LexLess(a, b)
    decreases |a|
  {
    if |a| > 0 && |b| > 0 && a[0] == b[0] {
      LexLessTrichotomy(a[1..], b[1..]);
      if a[1..] == b[1..] {
        assert a == [a[0]] + a[1..] && b == [b[0]] + b[1..];
      }
    }
    if a == b {
      LexLessIrreflexive(a);
    }
  }

  /* ---------------------------------------------------------------- */
  /* Substrings                                                        */
  /* ---------------------------------------------------------------- */

  /** Go's `strings.HasPrefix(s, prefix)`. */
  predicate HasPrefix(s: string, prefix: string) {
    |prefix| <= |s| && s[..|prefix|] == prefix
  }

  /** Go's `strings.HasSuffix(s, suffix)`. */
  predicate HasSuffix(s: string, suffix: string) {
    |suffix| <= |s| && s[|s| - |suffix|..] == suffix
  }

  /** Go's `strings.Contains(s, sub)`: `sub` is a prefix of `s` or of one
      of its suffixes. */
  predicate Contains(s: string, sub: string)
    decreases |s|
  {
    HasPrefix(s, sub) || (|s| > 0 && Contains(s[1..], sub))
  }

  /** `sub` occurs in `s` at offset `i`. */
  ghost predicate OccursAt(sub: string, s: string, i: nat) {
    i + |sub| <= |s| && s[i..i + |sub|] == sub
  }

  /** `sub` occurs in `s` at some offset. */
  ghost predicate OccursIn(sub: string, s: string) {
    exists i: nat :: OccursAt(sub, s, i)
  }

  lemma {:induction false} ContainsToOccurs(s: string, sub: string)
    requires Contains(s, sub)
    ensures OccursIn(sub, s)
    decreases |s|
  {
    if HasPrefix(s, sub) {
      assert OccursAt(sub, s, 0);
    } else {
      ContainsToOccurs(s[1..], sub);
      var i: nat :| OccursAt(sub, s[1..], i);
      assert s[i + 1..i + 1 + |sub|] == s[1..][i..i + |sub|];
      assert OccursAt(sub, s, i + 1);
    }
  }

  lemma {:induction false} OccursToContains(s: string, sub: string, i: nat)
    requires OccursAt(sub, s, i)
    ensures Contains(s, sub)
    decreases i
  {
    if i > 0 {
      assert s[1..][i - 1..i - 1 + |sub|] == s[i..i + |sub|];
      OccursToContains(s[1..], sub, i - 1);
    }
  }

  /** Go's `strings.Contains` holds exactly when the needle occurs at
      some offset of the haystack. */
  lemma ContainsIff(s: string, sub: string)
    ensures Contains(s, sub) <==> OccursIn(sub, s)
  {
    if Contains(s, sub) {
      ContainsToOccurs(s, sub);
    }
    if OccursIn(sub, s) {
      var i: nat :| OccursAt(sub, s, i);
      OccursToContains(s, sub, i);
    }
  }

  /** A prefix or a suffix is in particular contained. */
  lemma PrefixOrSuffixIsContained(s: string, x: string)
    requires HasPrefix(s, x) || HasSuffix(s, x)
    ensures Contains(s, x)
  {
    if HasPrefix(s, x) {
      assert OccursAt(x, s, 0);
      OccursToContains(s, x, 0);
    } else {
      assert OccursAt(x, s, |s| - |x|);
      OccursToContains(s, x, |s| - |x|);
    }
  }

  /** On the empty string every one of the three tests holds exactly for
      the empty needle. */
  lemma {:induction false} EmptyHaystack(x: string)
    ensures Contains("", x) <==> x == ""
    ensures HasPrefix("", x) <==> x == ""
    ensures HasSuffix("", x) <==> x == ""
  {
  }
}

=== FILE: tagseval.dfy ===
/** The tag-filter compiler of `pkg/lql/tagseval.go`.

    The Go builder keeps one mutable field, the "current predicate" `tef`,
    and every build step reads it and overwrites it. Here each step takes
    the current predicate `prev` and returns the new one together with
    the step's error. The entry point starts from `Nil`, the zero value of
    Go's func type.

    In the LIKE branch of the Go code, `_, err := path.Match(...)`
    declares a fresh `err` that shadows the named result, so an invalid
    pattern is reported nowhere and the current predicate is left as it
    was. `LikeErrors` selects between that behaviour (`Shadowed`, the code
    as written) and the evidently intended one (`Returned`). */
module TagsEval {
  import opened Maybe
  import opened Lql
  import opened Preds

  datatype BuildError =
    | BadPattern(pattern: string)              // "Wrong 'like' expression for ..."
    | Unsupported(op: string, operand: string)  // "Unsupported operation ... tag"

  /** What happens to the error built for an invalid LIKE pattern. */
  datatype LikeErrors = Shadowed | Returned

  /** The builder's state after a step: the current predicate and the
      step's error. */
  datatype Built = Built(tef: Pred, err: Option<BuildError>)

  /** `BuildTagsExpFunc`'s two results: a predicate (possibly a nil func)
      and no error, or an error and no predicate. */
  datatype Compiled = Compiled(f: Pred) | Failed(err: BuildError)

  /** The error a single leaf produces, if any. */
  function LeafError(c: Condition, probeOk: GlobProbe, mode: LikeErrors): Option<BuildError> {
    match ParseOp(c.op)
    case None => Some(Unsupported(c.op, c.operand))
    case Some(LikeOp) =>
      if !probeOk(c.value) && mode == Returned then Some(BadPattern(c.value)) else None
    case Some(_) => None
  }

  /** A leaf the compiler accepts and turns into a working closure: its
      operator is supported, and a LIKE pattern passes the probe. */
  predicate LeafSound(c: Condition, probeOk: GlobProbe) {
    match ParseOp(c.op)
    case None => false
    case Some(op) => op == LikeOp ==> probeOk(c.value)
  }

  /** `buildTagCond`: dispatch on the upper-cased operator and replace the
      current predicate by the leaf's closure. An unsupported operator is
      an error that leaves the current predicate alone; so is an invalid
      LIKE pattern, except that as written it is no error at all. */
  function BuildTagCond(c: Condition, prev: Pred, probeOk: GlobProbe, mode: LikeErrors): (b: Built)
    ensures b.err == LeafError(c, probeOk, mode)
    ensures LeafSound(c, probeOk) ==>
              && NilFree(b.tef)
              && forall tags, matches :: Eval(b.tef, tags, matches) == Ret(LeafHolds(c, tags, matches))
    ensures !LeafSound(c, probeOk) ==> b.tef == prev
  {
    match ParseOp(c.op)
    case None => Built(prev, Some(Unsupported(c.op, c.operand)))
    case Some(Compare(cmp)) => Built(Cmp(cmp, c.operand, c.value), None)
    case Some(LikeOp) =>
      if probeOk(c.value) then Built(Like(c.operand, c.value), None)
      else if mode == Shadowed then Built(prev, None)
      else Built(prev, Some(BadPattern(c.value)))
    case Some(ContainsOp) => Built(Contains(c.operand, c.value), None)
    case Some(HasPrefixOp) => Built(Prefix(c.operand, c.value), None)
    case Some(HasSuffixOp) => Built(Suffix(c.operand, c.value), None)
  }

  /** `buildOrConds`: no group means "match everything"; one group is
      built on its own; otherwise the first group is built, then the rest
      starting from the first group's predicate, and the two are joined
      by a left-to-right `||`. The first error stops the walk. */
  function BuildOrConds(ocs: seq<OrCondition>, prev: Pred, probeOk: GlobProbe, mode: LikeErrors): Built
    decreases ocs
  {
    if |ocs| == 0 then Built(True, None)
    else
      var b0 := BuildXConds(ocs[0].ands, prev, probeOk, mode);
      if b0.err.Some? || |ocs| == 1 then b0
      else
        var b1 := BuildOrConds(ocs[1..], b0.tef, probeOk, mode);
        if b1.err.Some? then b1 else Built(Or(b0.tef, b1.tef), None)
  }

  /** `buildXConds`: the same for the terms of one group, joined by `&&`. */
  function BuildXConds(xs: seq<XCondition>, prev: Pred, probeOk: GlobProbe, mode: LikeErrors): Built
    decreases xs
  {
    if |xs| == 0 then Built(True, None)
    else if |xs| == 1 then BuildXCond(xs[0], prev, probeOk, mode)
    else
      var b0 := BuildXCond(xs[0], prev, probeOk, mode);
      if b0.err.Some? then b0
      else
        var b1 := BuildXConds(xs[1..], b0.tef, probeOk, mode);
        if b1.err.Some? then b1 else Built(And(b0.tef, b1.tef), None)
  }

  /** `buildXCond`: build the nested expression or the leaf, then, if the
      term is negated, wrap whatever the current predicate now is in `!`. */
  function BuildXCond(x: XCondition, prev: Pred, probeOk: GlobProbe, mode: LikeErrors): Built
    decreases x
  {
    var b := match x.term
      case Nested(e) => BuildOrConds(e.ors, prev, probeOk, mode)
      case Leaf(c) => BuildTagCond(c, prev, probeOk, mode);
    if b.err.Some? then b
    else if x.not then Built(Not(b.tef), None)
    else b
  }

  /** `BuildTagsExpFunc` under either treatment of LIKE errors. */
  function Build(exp: Option<Expression>, probeOk: GlobProbe, mode: LikeErrors): Compiled {
    match exp
    case None => Compiled(True)
    case Some(e) =>
      var b := BuildOrConds(e.ors, Nil, probeOk, mode);
      if b.err.Some? then Failed(b.err.value) else Compiled(b.tef)
  }

  /** `BuildTagsExpFunc` as written. */
  function BuildTagsExpFunc(exp: Option<Expression>, probeOk: GlobProbe): Compiled {
    Build(exp, probeOk, Shadowed)
  }

  /** `BuildTagsExpFunc` with the LIKE error returned, as evidently
      intended. */
  function BuildTagsExpFuncIntended(exp: Option<Expression>, probeOk: GlobProbe): Compiled {
    Build(exp, probeOk, Returned)
  }
}

=== FILE: tagseval_examples.dfy ===
/** The shadowed LIKE error of the builder as written, and worked
    examples of compiled filters. */
module TagsEvalExamples {
  import opened Maybe
  import opened Lql
  import opened Preds
  import opened TagsEval
  import opened TagsEvalProofs

  /* ---------------------------------------------------------------- */
  /* The shadowed LIKE error                                           */
  /* ---------------------------------------------------------------- */

  /** A LIKE leaf whose pattern fails the probe. */
  predicate BadLike(c: Condition, probeOk: GlobProbe) {
    ParseOp(c.op) == Some(LikeOp) && !probeOk(c.value)
  }

  /** As written, a bad LIKE leaf reports no error and leaves the current
      predicate as it was; with the error returned, the step fails with
      `BadPattern`. */
  lemma BadLikeKeepsCurrent(c: Condition, prev: Pred, probeOk: GlobProbe)
    requires BadLike(c, probeOk)
    ensures BuildTagCond(c, prev, probeOk, Shadowed) == Built(prev, None)
    ensures BuildTagCond(c, prev, probeOk, Returned) == Built(prev, Some(BadPattern(c.value)))
  {
  }

  /** A filter that is a single bad LIKE leaf compiles, as written, with no
      error to the nil func, and calling it panics on every tag map. With
      the error returned, compilation fails instead. */
  lemma LoneBadLikeCompilesToNil(c: Condition, probeOk: GlobProbe, tags: TagMap, matches: GlobMatch)
    requires BadLike(c, probeOk)
    ensures var e := Expression([OrCondition([XCondition(false, Leaf(c))])]);
            && BuildTagsExpFunc(Some(e), probeOk) == Compiled(Nil)
            && Eval(BuildTagsExpFunc(Some(e), probeOk).f, tags, matches) == NilCall
            && BuildTagsExpFuncIntended(Some(e), probeOk) == Failed(BadPattern(c.value))
  {
    var x := XCondition(false, Leaf(c));
    assert BuildXCond(x, Nil, probeOk, Shadowed) == Built(Nil, None);
    assert BuildXConds([x], Nil, probeOk, Shadowed) == Built(Nil, None);
    assert BuildOrConds([OrCondition([x])], Nil, probeOk, Shadowed) == Built(Nil, None);
    assert BuildXCond(x, Nil, probeOk, Returned) == Built(Nil, Some(BadPattern(c.value)));
    assert BuildXConds([x], Nil, probeOk, Returned) == Built(Nil, Some(BadPattern(c.value)));
    assert BuildOrConds([OrCondition([x])], Nil, probeOk, Returned) == Built(Nil, Some(BadPattern(c.value)));
  }

  /** `a AND b LIKE bad`: as written, the bad LIKE term is replaced by a copy
      of the term built just before it, so the filter tests `a` twice and
      ignores the pattern altogether. */
  lemma BadLikeRepeatsPrevious(a: Condition, l: Condition, probeOk: GlobProbe,
                               tags: TagMap, matches: GlobMatch)
    requires LeafSound(a, probeOk) && BadLike(l, probeOk)
    ensures var e := Expression([OrCondition([XCondition(false, Leaf(a)), XCondition(false, Leaf(l))])]);
            var pa := BuildTagCond(a, Nil, probeOk, Shadowed).tef;
            && BuildTagsExpFunc(Some(e), probeOk) == Compiled(And(pa, pa))
            && Eval(BuildTagsExpFunc(Some(e), probeOk).f, tags, matches) == Ret(LeafHolds(a, tags, matches))
  {
    var xa, xl := XCondition(false, Leaf(a)), XCondition(false, Leaf(l));
    var pa := BuildTagCond(a, Nil, probeOk, Shadowed).tef;
    assert BuildXCond(xa, Nil, probeOk, Shadowed) == Built(pa, None);
    assert BuildXCond(xl, pa, probeOk, Shadowed) == Built(pa, None);
    assert [xa, xl][1..] == [xl];
    assert BuildXConds([xl], pa, probeOk, Shadowed) == Built(pa, None);
    assert BuildXConds([xa, xl], Nil, probeOk, Shadowed) == Built(And(pa, pa), None);
    assert BuildOrConds([OrCondition([xa, xl])], Nil, probeOk, Shadowed) == Built(And(pa, pa), None);
  }

  /** `NOT name LIKE bad` as the whole filter: the negation wraps the nil
      func, so the compiled filter panics on every tag map. */
  lemma NegatedLoneBadLikePanics(c: Condition, probeOk: GlobProbe, tags: TagMap, matches: GlobMatch)
    requires BadLike(c, probeOk)
    ensures var e := Expression([OrCondition([XCondition(true, Leaf(c))])]);
            && BuildTagsExpFunc(Some(e), probeOk) == Compiled(Not(Nil))
            && Eval(BuildTagsExpFunc(Some(e), probeOk).f, tags, matches) == NilCall
  {
    var x := XCondition(true, Leaf(c));
    assert BuildXCond(x, Nil, probeOk, Shadowed) == Built(Not(Nil), None);
    assert BuildXConds([x], Nil, probeOk, Shadowed) == Built(Not(Nil), None);
    assert BuildOrConds([OrCondition([x])], Nil, probeOk, Shadowed) == Built(Not(Nil), None);
  }

  /* ---------------------------------------------------------------- */
  /* Worked examples                                                   */
  /* ---------------------------------------------------------------- */

  function Is(operand: string, value: string): XCondition {
    XCondition(false, Leaf(Condition(operand, "=", value)))
  }

  /** `region = "us-east" AND (env = "prod" OR env = "staging")` */
  function RegionFilter(): Expression {
    Expression([OrCondition([
      Is("region", "us-east"),
      XCondition(false, Nested(Expression([
        OrCondition([Is("env", "prod")]),
        OrCondition([Is("env", "staging")])])))])])
  }

  lemma RegionFilterCompiles(probeOk: GlobProbe)
    ensures BuildTagsExpFunc(Some(RegionFilter()), probeOk)
         == Compiled(And(Cmp(Eq, "region", "us-east"),
                         Or(Cmp(Eq, "env", "prod"), Cmp(Eq, "env", "staging"))))
  {
    ParseToken(Compare(Eq));
    var pr, pp, ps := Cmp(Eq, "region", "us-east"), Cmp(Eq, "env", "prod"), Cmp(Eq, "env", "staging");
    var gp, gs := OrCondition([Is("env", "prod")]), OrCondition([Is("env", "staging")]);
    assert BuildXCond(Is("region", "us-east"), Nil, probeOk, Shadowed) == Built(pr, None);
    assert BuildOrConds([gp, gs][1..], pp, probeOk, Shadowed) == Built(ps, None);
    assert BuildOrConds([gp, gs], pr, probeOk, Shadowed) == Built(Or(pp, ps), None);
  }

  lemma RegionFilterExample(probeOk: GlobProbe, matches: GlobMatch)
    ensures BuildTagsExpFunc(Some(RegionFilter()), probeOk).Compiled?
    ensures Eval(BuildTagsExpFunc(Some(RegionFilter()), probeOk).f,
                 map["region" := "us-east", "env" := "staging"], matches) == Ret(true)
    ensures Eval(BuildTagsExpFunc(Some(RegionFilter()), probeOk).f,
                 map["region" := "us-west", "env" := "prod"], matches) == Ret(false)
  {
    RegionFilterCompiles(probeOk);
    RegionPredAnswers(matches);
  }

  lemma RegionPredAnswers(matches: GlobMatch)
    ensures Eval(And(Cmp(Eq, "region", "us-east"), Or(Cmp(Eq, "env", "prod"), Cmp(Eq, "env", "staging"))),
                 map["region" := "us-east", "env" := "staging"], matches) == Ret(true)
    ensures Eval(And(Cmp(Eq, "region", "us-east"), Or(Cmp(Eq, "env", "prod"), Cmp(Eq, "env", "staging"))),
                 map["region" := "us-west", "env" := "prod"], matches) == Ret(false)
  {
    var t1 := map["region" := "us-east", "env" := "staging"];
    var t2 := map["region" := "us-west", "env" := "prod"];
    assert Lookup(t1, "region") == "us-east" && Lookup(t1, "env") == "staging";
    assert Lookup(t2, "region") == "us-west";
    assert "us-west" != "us-east" by { assert "us-west"[3] != "us-east"[3]; }
    assert "staging" != "prod" by { assert |"staging"| != |"prod"|; }
  }

  /** `NOT (name HAS_PREFIX "tmp_")`, with the operator written in lower
      case. */
  function NotTmpFilter(): Expression {
    Expression([OrCondition([XCondition(true, Nested(Expression([
      OrCondition([XCondition(false, Leaf(Condition("name", "has_prefix", "tmp_")))])])))])])
  }

  lemma LowerCaseHasPrefix()
    ensures ParseOp("has_prefix") == Some(HasPrefixOp)
  {
    var u := Strs.ToUpper("has_prefix");
    assert u == "HAS_PREFIX" by {
      forall i | 0 <= i < 10
        ensures u[i] == "HAS_PREFIX"[i]
      {
      }
    }
    ParseToken(HasPrefixOp);
  }

  /** Any HAS_PREFIX leaf, whatever the case of its operator, compiles to
      the prefix closure. */
  lemma PrefixLeafCompiles(c: Condition, prev: Pred, probeOk: GlobProbe)
    requires ParseOp(c.op) == Some(HasPrefixOp)
    ensures BuildXCond(XCondition(false, Leaf(c)), prev, probeOk, Shadowed)
         == Built(Prefix(c.operand, c.value), None)
  {
    assert BuildTagCond(c, prev, probeOk, Shadowed) == Built(Prefix(c.operand, c.value), None);
  }

  lemma NotTmpFilterCompiles(probeOk: GlobProbe)
    ensures BuildTagsExpFunc(Some(NotTmpFilter()), probeOk) == Compiled(Not(Prefix("name", "tmp_")))
  {
    var x := XCondition(false, Leaf(Condition("name", "has_prefix", "tmp_")));
    LowerCaseHasPrefix();
    PrefixLeafCompiles(Condition("name", "has_prefix", "tmp_"), Nil, probeOk);
    var inner := BuildXConds([x], Nil, probeOk, Shadowed);
    assert inner == Built(Prefix("name", "tmp_"), None);
    assert BuildOrConds([OrCondition([x])], Nil, probeOk, Shadowed) == inner;
    var nx := XCondition(true, Nested(Expression([OrCondition([x])])));
    assert BuildXCond(nx, Nil, probeOk, Shadowed) == Built(Not(Prefix("name", "tmp_")), None);
  }

  lemma NotTmpFilterExample(probeOk: GlobProbe, matches: GlobMatch)
    ensures BuildTagsExpFunc(Some(NotTmpFilter()), probeOk).Compiled?
    ensures Eval(BuildTagsExpFunc(Some(NotTmpFilter()), probeOk).f, map["name" := "tmp_file"], matches)
         == Ret(false)
    ensures Eval(BuildTagsExpFunc(Some(NotTmpFilter()), probeOk).f, map["name" := "data"], matches)
         == Ret(true)
  {
    NotTmpFilterCompiles(probeOk);
    NotTmpPredAnswers(matches);
  }

  lemma NotTmpPredAnswers(matches: GlobMatch)
    ensures Eval(Not(Prefix("name", "tmp_")), map["name" := "tmp_file"], matches) == Ret(false)
    ensures Eval(Not(Prefix("name", "tmp_")), map["name" := "data"], matches) == Ret(true)
  {
    assert Lookup(map["name" := "tmp_file"], "name") == "tmp_file";
    assert Lookup(map["name" := "data"], "name") == "data";
    assert "tmp_file"[..4] == "tmp_";
    assert "data"[..4] != "tmp_" by {
      assert "data"[0] != "tmp_"[0];
    }
  }

  /** `NOT (a = "1" AND b = "1")` */
  function NotOfAnd(): Expression {
    Expression([OrCondition([XCondition(true, Nested(Expression([
      OrCondition([Is("a", "1"), Is("b", "1")])])))])])
  }

  /** `NOT a = "1" AND NOT b = "1"` */
  function AndOfNots(): Expression {
    Expression([OrCondition([Is("a", "1").(not := true), Is("b", "1").(not := true)])])
  }

  lemma NotOfAndCompiles(probeOk: GlobProbe)
    ensures BuildTagsExpFunc(Some(NotOfAnd()), probeOk)
         == Compiled(Not(And(Cmp(Eq, "a", "1"), Cmp(Eq, "b", "1"))))
  {
    ParseToken(Compare(Eq));
    var pa, pb := Cmp(Eq, "a", "1"), Cmp(Eq, "b", "1");
    var xa, xb := Is("a", "1"), Is("b", "1");
    assert BuildXCond(xa, Nil, probeOk, Shadowed) == Built(pa, None);
    assert BuildXCond(xb, pa, probeOk, Shadowed) == Built(pb, None);
    assert [xa, xb][1..] == [xb];
    assert BuildXConds([xa, xb], Nil, probeOk, Shadowed) == Built(And(pa, pb), None);
    assert BuildOrConds([OrCondition([xa, xb])], Nil, probeOk, Shadowed) == Built(And(pa, pb), None);
  }

  lemma AndOfNotsCompiles(probeOk: GlobProbe)
    ensures BuildTagsExpFunc(Some(AndOfNots()), probeOk)
         == Compiled(And(Not(Cmp(Eq, "a", "1")), Not(Cmp(Eq, "b", "1"))))
  {
    ParseToken(Compare(Eq));
    var pa, pb := Cmp(Eq, "a", "1"), Cmp(Eq, "b", "1");
    var na, nb := Is("a", "1").(not := true), Is("b", "1").(not := true);
    assert BuildXCond(na, Nil, probeOk, Shadowed) == Built(Not(pa), None);
    assert BuildXCond(nb, Not(pa), probeOk, Shadowed) == Built(Not(pb), None);
    assert [na, nb][1..] == [nb];
    assert BuildXConds([na, nb], Nil, probeOk, Shadowed) == Built(And(Not(pa), Not(pb)), None);
  }

  /** NOT is not pushed inwards: the two filters compile to different
      predicates that disagree on `{a: "1"}`. */
  lemma NegationIsNotDistributed(probeOk: GlobProbe, matches: GlobMatch)
    ensures BuildTagsExpFunc(Some(NotOfAnd()), probeOk).Compiled?
    ensures BuildTagsExpFunc(Some(AndOfNots()), probeOk).Compiled?
    ensures Eval(BuildTagsExpFunc(Some(NotOfAnd()), probeOk).f, map["a" := "1"], matches) == Ret(true)
    ensures Eval(BuildTagsExpFunc(Some(AndOfNots()), probeOk).f, map["a" := "1"], matches) == Ret(false)
  {
    NotOfAndCompiles(probeOk);
    AndOfNotsCompiles(probeOk);
    NegationPredAnswers(matches);
  }

  lemma NegationPredAnswers(matches: GlobMatch)
    ensures Eval(Not(And(Cmp(Eq, "a", "1"), Cmp(Eq, "b", "1"))), map["a" := "1"], matches) == Ret(true)
    ensures Eval(And(Not(Cmp(Eq, "a", "1")), Not(Cmp(Eq, "b", "1"))), map["a" := "1"], matches) == Ret(false)
  {
    assert Lookup(map["a" := "1"], "a") == "1";
    assert Lookup(map["a" := "1"], "b") == "";
  }

  /** A leaf whose operator is outside the table, negated or not, fails
      compilation in either mode with an error naming the operator and the
      operand. */
  lemma UnsupportedOperatorFails(c: Condition, not: bool, probeOk: GlobProbe, mode: LikeErrors)
    requires ParseOp(c.op).None?
    ensures Build(Some(Expression([OrCondition([XCondition(not, Leaf(c))])])), probeOk, mode)
         == Failed(Unsupported(c.op, c.operand))
  {
    var x := XCondition(not, Leaf(c));
    var err := Some(Unsupported(c.op, c.operand));
    assert BuildTagCond(c, Nil, probeOk, mode) == Built(Nil, err);
    assert BuildXCond(x, Nil, probeOk, mode) == Built(Nil, err);
    assert BuildXConds([x], Nil, probeOk, mode) == Built(Nil, err);
    assert BuildOrConds([OrCondition([x])], Nil, probeOk, mode) == Built(Nil, err);
  }

  /** `env = "prod" AND size ~ "10"`: the bad leaf fails the whole filter
      even after a good one. */
  lemma TildeOperatorFails(probeOk: GlobProbe)
    ensures BuildTagsExpFunc(Some(Expression([OrCondition([
              Is("env", "prod"), XCondition(false, Leaf(Condition("size", "~", "10")))])])), probeOk)
         == Failed(Unsupported("~", "size"))
  {
    ParseToken(Compare(Eq));
  }
}

=== FILE: tagseval_proofs.dfy ===
/** What the compiler promises, proved against a reference reading of the
    filter language that does not mention the builder at all:

    - the expression is true when it has no groups or some group has all
      its terms true; a term is its leaf or nested expression, inverted
      when negated (`SemOrs`, `SemAnds`, `SemX`);
    - compilation fails exactly at the first bad leaf, in reading order
      (`FirstError` over `OrsLeaves`). */
module TagsEvalProofs {
  import opened Maybe
  import opened Lql
  import opened Preds
  import opened TagsEval

  /* ---------------------------------------------------------------- */
  /* Reference semantics                                               */
  /* ---------------------------------------------------------------- */

  /** An OR list holds when it is empty or some group holds. */
  predicate SemOrs(ocs: seq<OrCondition>, tags: TagMap, matches: GlobMatch)
    decreases ocs
  {
    |ocs| == 0 || exists i :: 0 <= i < |ocs| && SemAnds(ocs[i].ands, tags, matches)
  }

  /** An AND group holds when every term holds. */
  predicate SemAnds(xs: seq<XCondition>, tags: TagMap, matches: GlobMatch)
    decreases xs
  {
    forall j :: 0 <= j < |xs| ==> SemX(xs[j], tags, matches)
  }

  /** A term holds when its leaf or nested expression does, inverted by NOT. */
  predicate SemX(x: XCondition, tags: TagMap, matches: GlobMatch)
    decreases x
  {
    var inner := match x.term
      case Leaf(c) => LeafHolds(c, tags, matches)
      case Nested(e) => SemOrs(e.ors, tags, matches);
    if x.not then !inner else inner
  }

  lemma SemOrsSplit(ocs: seq<OrCondition>, tags: TagMap, matches: GlobMatch)
    requires |ocs| >= 2
    ensures SemOrs(ocs, tags, matches)
        <==> SemAnds(ocs[0].ands, tags, matches) || SemOrs(ocs[1..], tags, matches)
  {
    if SemOrs(ocs, tags, matches) && !SemAnds(ocs[0].ands, tags, matches) {
      var i :| 0 <= i < |ocs| && SemAnds(ocs[i].ands, tags, matches);
      assert ocs[1..][i - 1] == ocs[i];
    }
    if SemOrs(ocs[1..], tags, matches) {
      var i :| 0 <= i < |ocs[1..]| && SemAnds(ocs[1..][i].ands, tags, matches);
      assert ocs[i + 1] == ocs[1..][i];
    }
  }

  lemma SemAndsSplit(xs: seq<XCondition>, tags: TagMap, matches: GlobMatch)
    requires |xs| >= 1
    ensures SemAnds(xs, tags, matches)
        <==> SemX(xs[0], tags, matches) && SemAnds(xs[1..], tags, matches)
  {
    if SemX(xs[0], tags, matches) && SemAnds(xs[1..], tags, matches) {
      forall j | 0 <= j < |xs|
        ensures SemX(xs[j], tags, matches)
      {
        if j > 0 {
          assert xs[j] == xs[1..][j - 1];
        }
      }
    }
  }

  /* ---------------------------------------------------------------- */
  /* Leaves in reading order, and the first bad one                    */
  /* ---------------------------------------------------------------- */

  function OrsLeaves(ocs: seq<OrCondition>): seq<Condition>
    decreases ocs
  {
    if |ocs| == 0 then [] else AndsLeaves(ocs[0].ands) + OrsLeaves(ocs[1..])
  }

  function AndsLeaves(xs: seq<XCondition>): seq<Condition>
    decreases xs
  {
    if |xs| == 0 then [] else TermLeaves(xs[0]) + AndsLeaves(xs[1..])
  }

  function TermLeaves(x: XCondition): seq<Condition>
    decreases x
  {
    match x.term
    case Leaf(c) => [c]
    case Nested(e) => OrsLeaves(e.ors)
  }

  /** Every leaf is sound. */
  predicate AllSound(cs: seq<Condition>, probeOk: GlobProbe) {
    forall i :: 0 <= i < |cs| ==> LeafSound(cs[i], probeOk)
  }

  lemma AllSoundAppend(a: seq<Condition>, b: seq<Condition>, probeOk: GlobProbe)
    ensures AllSound(a + b, probeOk) <==> AllSound(a, probeOk) && AllSound(b, probeOk)
  {
    if AllSound(a + b, probeOk) {
      forall i | 0 <= i < |a|
        ensures LeafSound(a[i], probeOk)
      {
        assert a[i] == (a + b)[i];
      }
      forall i | 0 <= i < |b|
        ensures LeafSound(b[i], probeOk)
      {
        assert b[i] == (a + b)[|a| + i];
      }
    }
    if AllSound(a, probeOk) && AllSound(b, probeOk) {
      forall i | 0 <= i < |a + b|
        ensures LeafSound((a + b)[i], probeOk)
      {
        if i < |a| {
          assert (a + b)[i] == a[i];
        } else {
          assert (a + b)[i] == b[i - |a|];
        }
      }
    }
  }

  /** The error of the first leaf that has one, scanning left to right. */
  function FirstError(cs: seq<Condition>, probeOk: GlobProbe, mode: LikeErrors): (r: Option<BuildError>)
    ensures r.None? <==> forall i :: 0 <= i < |cs| ==> LeafError(cs[i], probeOk, mode).None?
    ensures r.Some? ==>
              exists i :: 0 <= i < |cs| && r == LeafError(cs[i], probeOk, mode)
                       && forall j :: 0 <= j < i ==> LeafError(cs[j], probeOk, mode).None?
  {
    if |cs| == 0 then None
    else if LeafError(cs[0], probeOk, mode).Some? then LeafError(cs[0], probeOk, mode)
    else
      var r := FirstError(cs[1..], probeOk, mode);
      assert forall i :: 1 <= i < |cs| ==> cs[i] == cs[1..][i - 1];
      if r.Some? then
        var i :| 0 <= i < |cs[1..]| && r == LeafError(cs[1..][i], probeOk, mode)
               && forall j :: 0 <= j < i ==> LeafError(cs[1..][j], probeOk, mode).None?;
        assert forall j :: 0 <= j < i + 1 ==> LeafError(cs[j], probeOk, mode).None?;
        r
      else r
  }

  lemma {:induction false} FirstErrorAppend(a: seq<Condition>, b: seq<Condition>, probeOk: GlobProbe, mode: LikeErrors)
    ensures FirstError(a + b, probeOk, mode)
         == if FirstError(a, probeOk, mode).Some? then FirstError(a, probeOk, mode)
            else FirstError(b, probeOk, mode)
    decreases |a|
  {
    if |a| == 0 {
      assert a + b == b;
    } else {
      assert (a + b)[0] == a[0];
      assert (a + b)[1..] == a[1..] + b;
      FirstErrorAppend(a[1..], b, probeOk, mode);
    }
  }

  /* ---------------------------------------------------------------- */
  /* Errors: the build fails exactly at the first bad leaf             */
  /* ---------------------------------------------------------------- */

  lemma {:induction false} OrsError(ocs: seq<OrCondition>, prev: Pred, probeOk: GlobProbe, mode: LikeErrors)
    ensures BuildOrConds(ocs, prev, probeOk, mode).err == FirstError(OrsLeaves(ocs), probeOk, mode)
    decreases ocs
  {
    if |ocs| > 0 {
      var a, b := AndsLeaves(ocs[0].ands), OrsLeaves(ocs[1..]);
      AndsError(ocs[0].ands, prev, probeOk, mode);
      FirstErrorAppend(a, b, probeOk, mode);
      var b0 := BuildXConds(ocs[0].ands, prev, probeOk, mode);
      if |ocs| == 1 {
        assert OrsLeaves(ocs[1..]) == [];
        assert a + b == a;
      } else if b0.err.None? {
        OrsError(ocs[1..], b0.tef, probeOk, mode);
      }
    }
  }

  lemma {:induction false} AndsError(xs: seq<XCondition>, prev: Pred, probeOk: GlobProbe, mode: LikeErrors)
    ensures BuildXConds(xs, prev, probeOk, mode).err == FirstError(AndsLeaves(xs), probeOk, mode)
    decreases xs
  {
    if |xs| > 0 {
      var a, b := TermLeaves(xs[0]), AndsLeaves(xs[1..]);
      XError(xs[0], prev, probeOk, mode);
      FirstErrorAppend(a, b, probeOk, mode);
      var b0 := BuildXCond(xs[0], prev, probeOk, mode);
      if |xs| == 1 {
        assert AndsLeaves(xs[1..]) == [];
        assert a + b == a;
      } else if b0.err.None? {
        AndsError(xs[1..], b0.tef, probeOk, mode);
      }
    }
  }

  lemma {:induction false} XError(x: XCondition, prev: Pred, probeOk: GlobProbe, mode: LikeErrors)
    ensures BuildXCond(x, prev, probeOk, mode).err == FirstError(TermLeaves(x), probeOk, mode)
    decreases x
  {
    match x.term
    case Nested(e) =>
      OrsError(e.ors, prev, probeOk, mode);
    case Leaf(c) =>
      assert TermLeaves(x) == [c];
  }

  /* ---------------------------------------------------------------- */
  /* Meaning: a build over sound leaves computes the reference         */
  /* ---------------------------------------------------------------- */

  lemma {:induction false} OrsCorrect(ocs: seq<OrCondition>, prev: Pred, probeOk: GlobProbe,
                                      mode: LikeErrors, tags: TagMap, matches: GlobMatch)
    requires AllSound(OrsLeaves(ocs), probeOk)
    ensures var b := BuildOrConds(ocs, prev, probeOk, mode);
            && b.err.None?
            && NilFree(b.tef)
            && Eval(b.tef, tags, matches) == Ret(SemOrs(ocs, tags, matches))
    decreases ocs
  {
    if |ocs| > 0 {
      AllSoundAppend(AndsLeaves(ocs[0].ands), OrsLeaves(ocs[1..]), probeOk);
      AndsCorrect(ocs[0].ands, prev, probeOk, mode, tags, matches);
      var b0 := BuildXConds(ocs[0].ands, prev, probeOk, mode);
      if |ocs| == 1 {
        assert SemOrs(ocs, tags, matches) <==> SemAnds(ocs[0].ands, tags, matches);
      } else {
        OrsCorrect(ocs[1..], b0.tef, probeOk, mode, tags, matches);
        SemOrsSplit(ocs, tags, matches);
      }
    }
  }

  lemma {:induction false} AndsCorrect(xs: seq<XCondition>, prev: Pred, probeOk: GlobProbe,
                                       mode: LikeErrors, tags: TagMap, matches: GlobMatch)
    requires AllSound(AndsLeaves(xs), probeOk)
    ensures var b := BuildXConds(xs, prev, probeOk, mode);
            && b.err.None?
            && NilFree(b.tef)
            && Eval(b.tef, tags, matches) == Ret(SemAnds(xs, tags, matches))
    decreases xs
  {
    if |xs| > 0 {
      AllSoundAppend(TermLeaves(xs[0]), AndsLeaves(xs[1..]), probeOk);
      XCorrect(xs[0], prev, probeOk, mode, tags, matches);
      SemAndsSplit(xs, tags, matches);
      var b0 := BuildXCond(xs[0], prev, probeOk, mode);
      if |xs| == 1 {
        assert SemAnds(xs[1..], tags, matches);
      } else {
        AndsCorrect(xs[1..], b0.tef, probeOk, mode, tags, matches);
      }
    }
  }

  lemma {:induction false} XCorrect(x: XCondition, prev: Pred, probeOk: GlobProbe,
                                    mode: LikeErrors, tags: TagMap, matches: GlobMatch)
    requires AllSound(TermLeaves(x), probeOk)
    ensures var b := BuildXCond(x, prev, probeOk, mode);
            && b.err.None?
            && NilFree(b.tef)
            && Eval(b.tef, tags, matches) == Ret(SemX(x, tags, matches))
    decreases x
  {
    match x.term
    case Nested(e) =>
      OrsCorrect(e.ors, prev, probeOk, mode, tags, matches);
    case Leaf(c) =>
      assert TermLeaves(x)[0] == c;
  }

  /* ---------------------------------------------------------------- */
  /* The entry point                                                   */
  /* ---------------------------------------------------------------- */

  /** No expression at all compiles to "match everything". */
  lemma NilExpressionMatchesAll(probeOk: GlobProbe, mode: LikeErrors, tags: TagMap, matches: GlobMatch)
    ensures Build(None, probeOk, mode).Compiled?
    ensures Eval(Build(None, probeOk, mode).f, tags, matches) == Ret(true)
  {
  }

  /** Compilation fails exactly when some leaf is bad, and then with the
      error of the first bad leaf in reading order. */
  lemma CompileFailsAtFirstBadLeaf(e: Expression, probeOk: GlobProbe, mode: LikeErrors)
    ensures Build(Some(e), probeOk, mode).Failed?
        <==> exists i :: 0 <= i < |OrsLeaves(e.ors)| && LeafError(OrsLeaves(e.ors)[i], probeOk, mode).Some?
    ensures Build(Some(e), probeOk, mode).Failed? ==>
              Some(Build(Some(e), probeOk, mode).err) == FirstError(OrsLeaves(e.ors), probeOk, mode)
  {
    OrsError(e.ors, Nil, probeOk, mode);
  }

  /** Over sound leaves, compilation succeeds with a predicate that never
      panics and agrees with the reference semantics on every tag map. */
  lemma CompileCorrect(e: Expression, probeOk: GlobProbe, mode: LikeErrors, tags: TagMap, matches: GlobMatch)
    requires AllSound(OrsLeaves(e.ors), probeOk)
    ensures Build(Some(e), probeOk, mode).Compiled?
    ensures NilFree(Build(Some(e), probeOk, mode).f)
    ensures Eval(Build(Some(e), probeOk, mode).f, tags, matches) == Ret(SemOrs(e.ors, tags, matches))
  {
    OrsCorrect(e.ors, Nil, probeOk, mode, tags, matches);
  }

  /** As written, only an unsupported operator makes compilation fail; a
      LIKE pattern that fails the probe does not. */
  lemma AsWrittenFailsIffUnsupported(e: Expression, probeOk: GlobProbe)
    ensures BuildTagsExpFunc(Some(e), probeOk).Failed?
        <==> exists i :: 0 <= i < |OrsLeaves(e.ors)| && ParseOp(OrsLeaves(e.ors)[i].op).None?
  {
    CompileFailsAtFirstBadLeaf(e, probeOk, Shadowed);
    var cs := OrsLeaves(e.ors);
    assert forall i :: 0 <= i < |cs| ==>
      (LeafError(cs[i], probeOk, Shadowed).Some? <==> ParseOp(cs[i].op).None?);
  }

  /** With the LIKE error returned, every predicate that compiles is
      panic-free and means what the reference semantics says. */
  lemma IntendedIsCorrect(e: Expression, probeOk: GlobProbe, tags: TagMap, matches: GlobMatch)
    requires BuildTagsExpFuncIntended(Some(e), probeOk).Compiled?
    ensures NilFree(BuildTagsExpFuncIntended(Some(e), probeOk).f)
    ensures Eval(BuildTagsExpFuncIntended(Some(e), probeOk).f, tags, matches)
         == Ret(SemOrs(e.ors, tags, matches))
  {
    var cs := OrsLeaves(e.ors);
    assert BuildTagsExpFuncIntended(Some(e), probeOk) == Build(Some(e), probeOk, Returned);
    OrsError(e.ors, Nil, probeOk, Returned);
    assert FirstError(cs, probeOk, Returned).None?;
    forall i | 0 <= i < |cs|
      ensures LeafSound(cs[i], probeOk)
    {
      assert LeafError(cs[i], probeOk, Returned).None?;
    }
    CompileCorrect(e, probeOk, Returned, tags, matches);
  }

  /** With the LIKE error returned, compilation fails exactly when some
      leaf is not sound. */
  lemma IntendedFailsIffUnsound(e: Expression, probeOk: GlobProbe)
    ensures BuildTagsExpFuncIntended(Some(e), probeOk).Failed?
        <==> !AllSound(OrsLeaves(e.ors), probeOk)
  {
    CompileFailsAtFirstBadLeaf(e, probeOk, Returned);
    var cs := OrsLeaves(e.ors);
    assert forall i :: 0 <= i < |cs| ==>
      (LeafError(cs[i], probeOk, Returned).Some? <==> !LeafSound(cs[i], probeOk));
  }

  /* ---------------------------------------------------------------- */
  /* Shape of the lists and of negation                                */
  /* ---------------------------------------------------------------- */

  /** An empty OR list or AND list compiles, whatever came before, to the
      always-true predicate. */
  lemma EmptyListsMatchAll(prev: Pred, probeOk: GlobProbe, mode: LikeErrors, tags: TagMap, matches: GlobMatch)
    ensures BuildOrConds([], prev, probeOk, mode).err.None?
    ensures Eval(BuildOrConds([], prev, probeOk, mode).tef, tags, matches) == Ret(true)
    ensures BuildXConds([], prev, probeOk, mode).err.None?
    ensures Eval(BuildXConds([], prev, probeOk, mode).tef, tags, matches) == Ret(true)
  {
  }

  /** A list of one compiles to exactly what its single element does. */
  lemma SingletonIsItsElement(g: OrCondition, x: XCondition, prev: Pred, probeOk: GlobProbe, mode: LikeErrors)
    ensures BuildOrConds([g], prev, probeOk, mode) == BuildXConds(g.ands, prev, probeOk, mode)
    ensures BuildXConds([x], prev, probeOk, mode) == BuildXCond(x, prev, probeOk, mode)
  {
  }

  /** Two or more groups are joined by a left-to-right `||`, two or more
      terms by a left-to-right `&&`; the rest of the list is built starting
      from the first element's predicate. */
  lemma OrsFoldLeftToRight(ocs: seq<OrCondition>, prev: Pred, probeOk: GlobProbe, mode: LikeErrors)
    requires |ocs| >= 2
    ensures var b0 := BuildXConds(ocs[0].ands, prev, probeOk, mode);
            var b1 := BuildOrConds(ocs[1..], b0.tef, probeOk, mode);
            b0.err.None? && b1.err.None? ==>
              BuildOrConds(ocs, prev, probeOk, mode) == Built(Or(b0.tef, b1.tef), None)
  {
  }

  lemma AndsFoldLeftToRight(xs: seq<XCondition>, prev: Pred, probeOk: GlobProbe, mode: LikeErrors)
    requires |xs| >= 2
    ensures var b0 := BuildXCond(xs[0], prev, probeOk, mode);
            var b1 := BuildXConds(xs[1..], b0.tef, probeOk, mode);
            b0.err.None? && b1.err.None? ==>
              BuildXConds(xs, prev, probeOk, mode) == Built(And(b0.tef, b1.tef), None)
  {
  }

  /** NOT is applied after the inner build and is not pushed inwards: a
      negated term compiles to `Not` of the predicate its un-negated form
      compiles to, and evaluates to its negation. */
  lemma NegationWrapsInner(x: XCondition, prev: Pred, probeOk: GlobProbe, mode: LikeErrors,
                           tags: TagMap, matches: GlobMatch)
    requires x.not
    ensures var inner := BuildXCond(x.(not := false), prev, probeOk, mode);
            var b := BuildXCond(x, prev, probeOk, mode);
            && (inner.err.None? <==> b.err.None?)
            && (inner.err.None? ==> b.tef == Not(inner.tef))
            && (inner.err.None? && Eval(inner.tef, tags, matches).Ret? ==>
                  Eval(b.tef, tags, matches) == Ret(!Eval(inner.tef, tags, matches).value))
  {
  }

  /** `NOT ()`: the empty nested expression is always true, so its
      negation is always false. */
  lemma NotOfEmptyIsFalse(prev: Pred, probeOk: GlobProbe, mode: LikeErrors, tags: TagMap, matches: GlobMatch)
    ensures var b := BuildXCond(XCondition(true, Nested(Expression([]))), prev, probeOk, mode);
            b.err.None? && Eval(b.tef, tags, matches) == Ret(false)
  {
  }
}
